=== FILE: README.md ===
# Film-shot tagging: a Dafny model of tag selection, validation and search

This project models the decision logic of the film-shot tagging system. The system gives every image variant of a numbered shot one or two labels per category of a fixed tag catalog. It then flags weakly supported labels, and it answers free-text queries over the tagged rows. Once the embedding model is abstracted into per-category similarity scores, the logic is four pure rules:

- **Tag selection** (`TagGenerator`, from `utils/tag_generator.py`). For every catalog category, in catalog order, the labels at the category's top-k score indices are selected. k is 2 for `"Relational Expression"` and 1 for every other category.
- **Tag validation** (`TagValidator`, from `tag_validator.py`). A label is reported iff its index is outside the category's top-k and its score is below the threshold (default 0.25). The top-k is computed by the same shared `Ranking.TopK`. Rows whose `<id>.png` is missing are skipped; every other row gets exactly one result, in row order. The validator never reads a row's `tags` column; it re-scores the image.
- **Search** (`Search`, from `search.py`). The catalog is flattened and lower-cased. The candidates that are substrings of the lower-cased query become the matched tags. Each row scores the number of matched tags found in its lower-cased tag string. Rows scoring above 0 are ranked by score and cut with `head(top_k)`.
- **Tagging loop** (`Tagging`, from `main.py`). Each shot expands into variants `a`, `b`, `c`. A missing image skips its variant. Every other variant becomes a row whose `tags` column is `"<cat>: <l1>, <l2>"` pieces joined by `", "`.

Supporting modules:

- `Text`: ASCII lower-casing, Python's `needle in hay`, and `sep.join`.
- `Catalog`: the catalog, the k policy, the error type and `Then`, which runs two list-producing passes in order (the first failure wins).
- `Ranking`: top-k selection.
- `Records`: the CSV row types and the `<id>.png` file name.

Image existence (`imageExists`) and the similarity scores of an image file (`scoresOf`) are function parameters. Scores are `real`.

`Ranking.TopK` breaks exact ties lower-index-first. This is an assumption, because `torch.topk` does not fix the tie order. Its contract states two things. `IsTopK` is the promise `topk` makes whatever the tie order. `IsRankedTopK` adds the tie-break, and `RankedTopKUnique` shows it leaves no freedom.

Both the tagger and the validator raise on some catalogs. The model returns `Failure(e)`, where `e` names the first category, in catalog order, at which the loop over the catalog stops. The Python exception itself names no category. `e` also records which of the two causes applies:

- `TooFewLabels`: the category has fewer labels than its k, so `topk` raises (utils/tag_generator.py:48, tag_validator.py:43).
- `SingleLabel`: the category has exactly one label and k is 1. Then the score vector squeezes to a 0-d tensor and `tolist()` of its indices is a bare int. The tagger raises when it iterates that int (utils/tag_generator.py:50). The validator raises when it indexes the 0-d tensor (tag_validator.py:47). If `topk` rejects the 0-d input instead, both raise one line earlier.

So every category needs at least two labels (`Catalog.Short`).

Two further consequences of the code:

- main.py:36 joins the categories with `", "`, the same separator it uses between labels. So the tag string does not round-trip (`Tagging.SerialiseNotInjective`).
- `sort_values` (pandas' default quicksort, search.py:34) is not stable. The search contracts state no tie order.

## Model

| member | source | states |
|---|---|---|
| Text.Lower | search.py:8 | The result has no upper-case ASCII letter and is as long as the input. It differs from the input only where the input had an upper-case letter, which becomes the letter 32 code points higher. |
| Text.Join | main.py:36 | Joining no parts gives the empty string and joining one part gives that part; with `Text.JoinAppend` this fixes every join. |
| Text.JoinAppend | main.py:36 | Joining two non-empty lists equals joining each and putting one separator between them, so parts keep their order and every gap holds the separator. |
| Text.ContainsIsSubstring | search.py:13 | The scanning search used for Python's `tag in text` holds exactly when some slice of the text equals the tag. Both directions are proved, and the empty tag is always contained. |
| Catalog.K | utils/tag_generator.py:47 | A category keeps 1 or 2 labels, and 2 exactly when it is named "Relational Expression". The validator uses the same rule (tag_validator.py:42). |
| Catalog.Then | main.py:22-37 | Two passes run one after the other. The outcome succeeds iff both do, and then holds the first pass's rows followed by the second's. Otherwise it is the error of the first pass that raised, which ends the loop as the exception does. The validator's loop (tag_validator.py:20-54) uses the same rule. |
| Catalog.Short | utils/tag_generator.py:48-50 | A category makes a pass over the catalog raise iff it has fewer labels than its k or exactly one label, so every category needs at least two. The validator raises on the same categories (tag_validator.py:43-47). |
| Catalog.FirstShort | utils/tag_generator.py:36-50 | Finds the first category, at or after a position, on which the tagger raises. None iff there is no such category. |
| Catalog.ShortError | utils/tag_generator.py:36-50 | The error for an unselectable catalog names the first category in catalog order on which the loop raises, with its cause. The Python exception names no category; the model records where the loop stops. |
| Ranking.Best | utils/tag_generator.py:48 | Returns an index outside the taken ones that outranks every other untaken index (higher score, or equal score and lower index). None iff every index is taken. |
| Ranking.TopK | utils/tag_generator.py:48 | Returns k distinct in-range indices in non-increasing score order. No unselected index scores higher than a selected one. The lower-index-first tie-break is part of the order. |
| Ranking.RankedTopKUnique | utils/tag_generator.py:48 | Two index lists that both satisfy the ranked top-k property are equal. Selection is therefore deterministic on equal scores. |
| TagGenerator.SelectCategory | utils/tag_generator.py:47-50 | A category's selected labels are the labels at a ranked top-k index list with k = K(name), in that order. |
| TagGenerator.GenerateTags | utils/tag_generator.py:34-52 | Succeeds iff every category has at least two labels (k is at most 2). Otherwise it fails at the first category that does not; the Python exception names no category, the model records where the loop stops. On success it has one entry per catalog category, in catalog order, under the category's name. |
| TagGenerator.GenerateTagsFor | utils/tag_generator.py:22-52 | The call with a description succeeds iff the catalog is selectable, and otherwise fails with the catalog's error. On success it has one entry per category, in catalog order, under the category's name and holding that category's selected labels. |
| TagGenerator.SelectionProperties | utils/tag_generator.py:47-50 | Each category gets 2 labels if named "Relational Expression" and 1 otherwise. Every selected label is a label of that category at a top-k index. The indices are distinct and in non-increasing score order, and none scores below an unselected index. |
| TagGenerator.DescriptionIgnored | utils/tag_generator.py:22-52 | The description argument does not affect the generated tags. |
| TagValidator.FlaggedIndices | tag_validator.py:46-49 | Returns strictly increasing indices. An index is included iff it is not in the top-k list and its score is strictly below the threshold. |
| TagValidator.ValidateCategory | tag_validator.py:42-49 | Every reported entry of a category names that category and one of its labels, and its score is below the threshold. |
| TagValidator.ValidateCategorySpec | tag_validator.py:42-49 | A category's entries are (category, label, score) for exactly the indices outside the top-k with score below the threshold, in label order. So a top-k label is never reported whatever its score, and a label at or above the threshold never is. |
| TagValidator.CategoryEntryOrigin | tag_validator.py:46-49 | Every entry of a category is a label of that category, with its own score, outside the top-k and below the threshold. |
| TagValidator.ValidateCategoryBound | tag_validator.py:42-49 | A category yields at most (number of labels minus k) entries. |
| TagValidator.DefaultThresholdIsStrict | tag_validator.py:46-49 | At the default threshold 0.25, a label scoring exactly 0.25 outside the top-1 is not reported, while a lower one is. |
| TagValidator.DefaultThresholdKeepsBest | tag_validator.py:46-49 | At the default threshold, the top label is kept even when it scores below 0.25, and every other label below 0.25 is reported, in label order. |
| TagValidator.ValidateCategories | tag_validator.py:33-49 | Every entry of an image scores below the threshold. |
| TagValidator.ValidateImage | tag_validator.py:33-49 | Validating an image succeeds iff the catalog is selectable. On failure it stops at the same category, for the same cause, as the tagger does on those scores. On success its entries are exactly `ValidateCategories`' entries, so `EntryOrigin`, `EntryComplete` and `ValidateCategoriesAppend` describe them. |
| TagValidator.EntryComplete | tag_validator.py:33-49 | Every label of every category that is outside the category's top-k and scores below the threshold is among the image's entries, with its category and score. With `EntryOrigin` this is the whole-image "reported iff flagged" rule. |
| TagValidator.ValidateCategoriesAppend | tag_validator.py:33-49 | Entries are grouped by category in catalog order: validating a concatenated catalog gives the concatenated entries. |
| TagValidator.EntryOrigin | tag_validator.py:33-49 | Every entry of an image comes from some category and label index outside that category's top-k, with score below the threshold. |
| TagValidator.SelectedNeverFlagged | tag_validator.py:42-48 | On the scores the tagger saw, no label the tagger selected for a category is reported for that category. This assumes distinct category names and distinct labels within the category. |
| TagValidator.UnselectedLabel | utils/tag_generator.py:48-50 | With distinct labels, a label whose index is outside the top-k is not among the generated tags of its category. |
| TagValidator.PresentIds | tag_validator.py:20-23 | The ids the loop does not skip: an id is kept iff it is an input id whose `<id>.png` exists. There are never more of them than input ids. |
| TagValidator.ValidateRow | tag_validator.py:20-54 | One row contributes nothing when its image is missing. Otherwise it contributes one result with its id and its image's entries, or it fails with the catalog's error. |
| TagValidator.ValidateTags | tag_validator.py:20-54 | Fails iff some row's image exists and the catalog is not selectable, with the catalog's error. On success the result ids are exactly the ids whose `<id>.png` exists, in row order, one result each. Each result carries that image's validation entries. |
| TagValidator.ValidateTagsAppend | tag_validator.py:20-54 | Rows are validated one after another: validating concatenated id lists gives the concatenated results, and the first failure wins. |
| TagValidator.SingleRowValidation | tag_validator.py:20-54 | Validating one id whose image exists gives exactly one result: that id with its image's entries. |
| TagValidator.MissingRowSkipped | tag_validator.py:20-23 | Validating one id whose image is missing gives no result and does not fail. |
| Search.LoadAllTags | search.py:8 | The flattened list has exactly as many entries as the catalog has labels, duplicates kept. |
| Search.LoadAllTagsPositions | search.py:8 | Label j of category c appears lower-cased right after the labels of the categories before c. This fixes both order and duplicates. |
| Search.CandidateOfLabel | search.py:8 | Every lower-cased catalog label is a candidate tag. |
| Search.MatchQueryToTags | search.py:13 | Each candidate that occurs in the lower-cased query is kept as often as it is listed. Every other candidate is dropped. The result is never longer than the candidate list. |
| Search.MatchAppend | search.py:13 | Matching distributes over concatenation, so the kept candidates stay in candidate order. |
| Search.ScoreTagMatches | search.py:16-22 | A row's score is between 0 and the number of matched tags. It equals the number of matched tags, duplicates counted, that occur in the lower-cased tag string. |
| Search.ScoreZeroIff | search.py:16-22 | A row scores 0 iff none of the matched tags occurs in its lower-cased tag string. |
| Search.ScoreRows | search.py:33 | Every row gets a score, in row order. The score is the row's `score_tag_matches` count, at most the number of matched tags, and 0 iff no matched tag occurs in the row's lower-cased tag string. |
| Search.Positive | search.py:34 | Keeps every hit with a positive score as often as it occurs and drops the others. |
| Search.Insert | search.py:34 | Inserting into a non-increasing list keeps it non-increasing and adds exactly the inserted hit. |
| Search.SortByScore | search.py:34 | The result is a permutation of the hits in non-increasing score order. |
| Search.HeadLength | search.py:34 | `head(n)` keeps at most the whole list. For n >= 0 it keeps n rows, or every row when there are fewer. For a negative n it keeps all but the last -n rows, or none. |
| Search.SearchImages | search.py:24-34 | `NoTagsMatched` (the early `return []`, search.py:31) iff no candidate occurs in the lower-cased query. Otherwise the hits are in non-increasing score order and there are at most `top_k` of them when `top_k` is non-negative. Each hit is a corpus row with score > 0, and its score is the row's own. |
| Search.HitsFromRows | search.py:33-34 | Every hit cut from the sorted positive rows is a corpus row paired with its own positive score. |
| Search.SearchKeepsBest | search.py:33-34 | The hits are a sub-multiset of the positive-scored rows, as many as `head(top_k)` keeps. No left-out positive row scores higher than a kept one. |
| Search.DefaultSearchKeepsFive | search.py:24-34 | With the default `top_k` of 5, a search keeps 5 rows, or every positive row when fewer than 5 score above 0. |
| Search.PrefixKeepsBest | search.py:34 | A prefix of a non-increasing list is part of it, and nothing outside the prefix scores above an entry in it. |
| Tagging.SerialiseTags | main.py:36 | Every category heading `"<name>: "` and every selected label occurs in the tag string. |
| Tagging.SerialiseAppend | main.py:36 | The tag string of two non-empty dictionaries placed one after the other is the first's tag string, a comma-space, then the second's. So categories appear in dictionary order, separated exactly as labels are. |
| Tagging.SingleCategoryTags | main.py:36 | A one-category dictionary serialises as the category name, a colon and a space, then its labels joined by comma-space. |
| Tagging.SerialiseNotInjective | main.py:36 | Two different tag dictionaries serialise to the same string: a label containing ", " reads the same as two labels, because labels are joined with that separator. |
| Tagging.SerialiseMergesCategories | main.py:36 | A one-category dictionary whose label contains ", B: " serialises like a two-category dictionary, because categories are joined with the same ", " separator as labels. |
| Tagging.PresentVariants | main.py:23-29 | Lists suffix positions in increasing order. A variant is included iff its image `<shot id><suffix>.png` exists. |
| Tagging.VariantRow | main.py:31-37 | A variant's row has id = shot id + suffix and carries the shot's title and description unchanged. Its tag string serialises the tags generated from that variant's image. |
| Tagging.TagShot | main.py:23-37 | A shot yields one row per existing variant, in a, b, c order, so at most 3. It fails iff a variant image exists and the catalog is not selectable, with the catalog's error. |
| Tagging.TagShots | main.py:22-37 | The loop fails iff some shot has an existing variant image and the catalog is not selectable, with the catalog's error. Otherwise it writes at most 3 rows per shot. Each row's image exists and its tag string serialises the tags generated from that image. |
| Tagging.TagShotsSingle | main.py:22-37 | The loop over one shot writes exactly that shot's rows. |
| Tagging.TagShotsAppend | main.py:22-37 | Shots are processed in table order: tagging concatenated shot lists gives the concatenated rows, and the first failure wins. |
| Tagging.VariantInShot | main.py:23-37 | When tagging a shot succeeds, the row of each of its variants whose image exists is among the shot's rows. |
| Tagging.VariantWritten | main.py:22-37 | When the loop succeeds, the row of every variant whose image exists, of every shot, is among the written rows. |
| Tagging.RowOrigin | main.py:22-35 | Every written row is variant a, b or c of some shot and carries that shot's title and description. |
| Tagging.TaggedRowValidatesClean | tag_validator.py:20-49 | Validating a row whose `<id>.png` exists gives one result, for that id. The file is the very image the row was tagged from, because `TagShots` writes only such rows. None of the labels generated from that image is reported, whatever the threshold. This assumes distinct category names and distinct labels within each category. |
| Tagging.SearchFindsOwnLabel | search.py:8-34 | A query that contains, case-insensitively, a label selected for a written row matches a tag. That row then scores at least 1, and it is among the positive rows the search ranks. |

## Left out

- CLIP model loading, tokenisation, image preprocessing, `encode_image`/`encode_text`, normalisation and the cosine product are foreign model calls and float numerics. They are replaced by a per-category score sequence per image file (`scoresOf`).
- The encoder is taken to return the same scores for the same image file in both scripts (`scoresOf` is a function of the file name). `Tagging.TaggedRowValidatesClean` depends on this, although the tagger and the validator encode the image separately.
- Scores are mathematical reals, so float rounding and NaN are not modelled.
- Ranking.TopK: ties are broken lower-index-first. This is an assumption, because `torch.topk` does not document a tie order. The torch-level promise is stated separately as `IsTopK`.
- Catalog.ShortError: the Python exception class and message are not modelled. The tagger raises a `TypeError` on a single-label category and the validator an `IndexError`; both are modelled as the same `SingleLabel(category)`.
- Formatting of the score to two decimals and the `"; "` join of the unreliable entries are not modelled. Entries stay `(category, tag, score)` values.
- JSON, CSV and filesystem I/O, `os.makedirs`, `print` and the `input()` prompt are not modelled. File existence is the `imageExists` parameter. A tag string read back from the CSV is taken to equal the one written.
- `utils/pdf_parser.py` is not part of this model. It does pdfplumber text extraction plus regex and `str.title()` processing.
- Text.Lower: models Python's Unicode `str.lower()` as ASCII lower-casing only.
- Search.SortByScore: keeps equal scores in row order, which is one order pandas' unstable sort may produce. No contract promises a tie order.

=== FILE: catalog.dfy ===
/** The tag catalog (a JSON object from category name to an ordered label
    list), the per-category top-k policy, and the error raised when a
    category has fewer labels than its k. */
module Catalog {

  /** One catalog entry; label order is the index order scores refer to. */
  datatype Category = Category(name: string, labels: seq<string>)

  /** Categories in the JSON object's insertion order. */
  type Catalog = seq<Category>

  /** The only category whose selection keeps two labels. */
  const RelationalExpression: string := "Relational Expression"

  /** How many labels a category keeps: 2 for "Relational Expression", 1 otherwise. */
  function K(name: string): (k: nat)
    ensures 1 <= k <= 2
    ensures k == 2 <==> name == RelationalExpression
  {
    if name == RelationalExpression then 2 else 1
  }

  /** A category on which a pass over the catalog raises: with fewer labels
      than its k, `topk` raises; with exactly one label the score vector
      squeezes to a 0-d tensor whose index list is a bare int, and iterating
      or indexing it raises. So every category needs at least two labels. */
  predicate Short(cat: Category) {
    |cat.labels| < K(cat.name) || |cat.labels| == 1
  }

  /** Every category can be ranked, so neither tagging nor validation raises. */
  predicate Selectable(catalog: Catalog) {
    forall c :: 0 <= c < |catalog| ==> !Short(catalog[c])
  }

  /** JSON object keys are distinct. */
  predicate DistinctNames(catalog: Catalog) {
    forall c, d :: 0 <= c < d < |catalog| ==> catalog[c].name != catalog[d].name
  }

  /** No label repeats inside a category. */
  predicate DistinctLabels(cat: Category) {
    forall i, j :: 0 <= i < j < |cat.labels| ==> cat.labels[i] != cat.labels[j]
  }

  /** One similarity score per label of every category, as the embedding model yields. */
  predicate Aligned(catalog: Catalog, scores: seq<seq<real>>) {
    && |scores| == |catalog|
    && forall c :: 0 <= c < |catalog| ==> |scores[c]| == |catalog[c].labels|
  }

  /** Where and why a pass over the catalog raises. The exception itself does
      not name a category; `category` records where the loop stops.
      `TooFewLabels`: `topk` is asked for more indices than there are labels.
      `SingleLabel`: one label, so the selected indices are a bare int. */
  datatype TagError = TooFewLabels(category: string) | SingleLabel(category: string)

  datatype Result<T> = Success(value: T) | Failure(error: TagError)

  /** Runs two passes that each produce a list, the first before the second:
      the first failure is the outcome, otherwise the two lists concatenated. */
  function Then<T>(r1: Result<seq<T>>, r2: Result<seq<T>>): (r: Result<seq<T>>)
    ensures r.Success? <==> r1.Success? && r2.Success?
    ensures r.Success? ==> r.value == r1.value + r2.value
    ensures r.Failure? ==> r.error == (if r1.Failure? then r1.error else r2.error)
  {
    if r1.Failure? then r1
    else if r2.Failure? then r2
    else Success(r1.value + r2.value)
  }

  /** A pass that produces nothing and does not fail changes nothing. */
  lemma ThenSuccessEmpty<T>(r: Result<seq<T>>)
    ensures Then(Success([]), r) == r && Then(r, Success([])) == r
  {
    if r.Success? {
      assert [] + r.value == r.value && r.value + [] == r.value;
    }
  }

  /** Running three passes in order does not depend on how they are grouped. */
  lemma ThenAssociative<T>(a: Result<seq<T>>, b: Result<seq<T>>, c: Result<seq<T>>)
    ensures Then(a, Then(b, c)) == Then(Then(a, b), c)
  {
    if a.Success? && b.Success? && c.Success? {
      assert a.value + (b.value + c.value) == (a.value + b.value) + c.value;
    }
  }

  datatype Option<T> = None | Some(value: T)

  /** The first short category at or after `from`, which is where the loop over
      the catalog raises. */
  function FirstShort(catalog: Catalog, from: nat): (r: Option<nat>)
    decreases |catalog| - from
    ensures r.None? <==> forall c :: from <= c < |catalog| ==> !Short(catalog[c])
    ensures r.Some? ==>
      && from <= r.value < |catalog|
      && Short(catalog[r.value])
      && forall c :: from <= c < r.value ==> !Short(catalog[c])
  {
    if from >= |catalog| then None
    else if Short(catalog[from]) then Some(from)
    else FirstShort(catalog, from + 1)
  }

  /** The error raised at a short category: `topk` fails first when k
      exceeds the label count, otherwise the bare-int index list does. */
  function ErrorAt(cat: Category): (e: TagError)
    requires Short(cat)
    ensures e.category == cat.name
    ensures e.TooFewLabels? <==> |cat.labels| < K(cat.name)
    ensures e.SingleLabel? ==> |cat.labels| == 1 && K(cat.name) == 1
  {
    if |cat.labels| < K(cat.name) then TooFewLabels(cat.name) else SingleLabel(cat.name)
  }

  /** The error a pass over an unselectable catalog raises. */
  function ShortError(catalog: Catalog): (e: TagError)
    requires !Selectable(catalog)
    ensures exists c ::
              && 0 <= c < |catalog| && Short(catalog[c]) && e == ErrorAt(catalog[c])
              && forall d :: 0 <= d < c ==> !Short(catalog[d])
  {
    ErrorAt(catalog[FirstShort(catalog, 0).value])
  }
}

=== FILE: ranking.dfy ===
/** Top-k selection over one category's similarity scores: the model of
    `similarity.topk(k).indices`, shared by the tag generator and the tag
    validator. Ties are broken lower-index-first. */
module Ranking {
  import opened Catalog

  /** Index `j` ranks strictly ahead of index `i`: a higher score, or an
      equal score at a lower index. */
  predicate Outranks(s: seq<real>, j: nat, i: nat)
    requires j < |s| && i < |s|
  {
    s[j] > s[i] || (s[j] == s[i] && j < i)
  }

  /** Indices into a sequence of length `n`, none repeated. */
  predicate InRangeDistinct(r: seq<nat>, n: nat) {
    && (forall m :: 0 <= m < |r| ==> r[m] < n)
    && (forall m, m' :: 0 <= m < m' < |r| ==> r[m] != r[m'])
  }

  /** Strictly ascending indices. */
  predicate Increasing(r: seq<nat>) {
    forall m, m' :: 0 <= m < m' < |r| ==> r[m] < r[m']
  }

  /** What `topk` promises: `k` distinct indices in non-increasing score
      order, and no unselected index scores higher than a selected one. */
  predicate IsTopK(s: seq<real>, k: nat, r: seq<nat>) {
    && |r| == k
    && InRangeDistinct(r, |s|)
    && (forall m, m' :: 0 <= m < m' < |r| ==> s[r[m]] >= s[r[m']])
    && (forall m, i :: 0 <= m < |r| && 0 <= i < |s| && i !in r ==> s[r[m]] >= s[i])
  }

  /** `IsTopK` with the lower-index-first tie-break made part of the order. */
  predicate IsRankedTopK(s: seq<real>, k: nat, r: seq<nat>) {
    && |r| == k
    && InRangeDistinct(r, |s|)
    && (forall m, m' :: 0 <= m < m' < |r| ==> Outranks(s, r[m], r[m']))
    && (forall m, i :: 0 <= m < |r| && 0 <= i < |s| && i !in r ==> Outranks(s, r[m], i))
  }

  /** The index in `[from, |s|)` outside `taken` that outranks every other one there. */
  function Best(s: seq<real>, taken: seq<nat>, from: nat): (b: Option<nat>)
    decreases |s| - from
    ensures b.None? <==> forall i :: from <= i < |s| ==> i in taken
    ensures b.Some? ==>
      && from <= b.value < |s|
      && b.value !in taken
      && forall i :: from <= i < |s| && i !in taken && i != b.value ==> Outranks(s, b.value, i)
  {
    if from >= |s| then None
    else
      var rest := Best(s, taken, from + 1);
      if from in taken then rest
      else if rest.None? || s[from] >= s[rest.value] then Some(from)
      else rest
  }

  /** The `k` best indices of `s`, best first. */
  function TopK(s: seq<real>, k: nat): (r: seq<nat>)
    requires k <= |s|
    decreases k
    ensures IsRankedTopK(s, k, r)
    ensures IsTopK(s, k, r)
  {
    if k == 0 then []
    else
      var prev := TopK(s, k - 1);
      MissingIndex(prev, |s|);
      var b := Best(s, prev, 0);
      prev + [b.value]
  }

  /** The ranked top-k list is unique: the tie-break leaves no freedom. */
  lemma RankedTopKUnique(s: seq<real>, k: nat, a: seq<nat>, b: seq<nat>)
    requires IsRankedTopK(s, k, a) && IsRankedTopK(s, k, b)
    ensures a == b
  {
    RankedPrefixAgree(s, k, a, b, k);
    assert a == a[..k] && b == b[..k];
  }

  lemma {:induction false} RankedPrefixAgree(s: seq<real>, k: nat, a: seq<nat>, b: seq<nat>, p: nat)
    requires IsRankedTopK(s, k, a) && IsRankedTopK(s, k, b)
    requires p <= k
    ensures a[..p] == b[..p]
  {
    if p > 0 {
      RankedPrefixAgree(s, k, a, b, p - 1);
      var x, y := a[p - 1], b[p - 1];
      if x != y {
        assert Outranks(s, x, y) by { AheadOfOther(s, k, a, b, p - 1); }
        assert Outranks(s, y, x) by { AheadOfOther(s, k, b, a, p - 1); }
        assert false;
      }
      assert a[..p] == a[..p - 1] + [x] && b[..p] == b[..p - 1] + [y];
    }
  }

  /** Where two ranked lists first differ, the first list's entry outranks the second's. */
  lemma AheadOfOther(s: seq<real>, k: nat, a: seq<nat>, b: seq<nat>, p: nat)
    requires IsRankedTopK(s, k, a) && IsRankedTopK(s, k, b)
    requires p < k && a[..p] == b[..p] && a[p] != b[p]
    ensures Outranks(s, a[p], b[p])
  {
    if b[p] in a {
      var q :| 0 <= q < k && a[q] == b[p];
      assert q > p;
    }
  }

  /** A distinct index list shorter than `n` misses some index below `n`. */
  lemma MissingIndex(r: seq<nat>, n: nat)
    requires InRangeDistinct(r, n) && |r| < n
    ensures exists i :: 0 <= i < n && i !in r
  {
    if forall i :: 0 <= i < n ==> i in r {
      assert Range(n) <= Elements(r);
      SubsetCard(Range(n), Elements(r));
      DistinctCard(r);
      RangeCard(n);
      assert false;
    }
  }

  /** The set `{0, ..., n - 1}`. */
  function Range(n: nat): (r: set<nat>)
    ensures forall i: nat :: i in r <==> i < n
  {
    if n == 0 then {} else Range(n - 1) + {n - 1}
  }

  function Elements(r: seq<nat>): set<nat> {
    set x | x in r
  }

  lemma {:induction false} RangeCard(n: nat)
    ensures |Range(n)| == n
  {
    if n > 0 {
      RangeCard(n - 1);
      assert Range(n) == Range(n - 1) + {n - 1};
    }
  }

  lemma {:induction false} DistinctCard(r: seq<nat>)
    requires forall m, m' :: 0 <= m < m' < |r| ==> r[m] != r[m']
    ensures |Elements(r)| == |r|
  {
    if |r| > 0 {
      DistinctCard(r[1..]);
      assert Elements(r) == {r[0]} + Elements(r[1..]);
      assert r[0] !in Elements(r[1..]);
    }
  }

  lemma {:induction false} SubsetCard(a: set<nat>, b: set<nat>)
    requires a <= b
    ensures |a| <= |b|
    decreases |b|
  {
    if a != {} {
      var x :| x in a;
      SubsetCard(a - {x}, b - {x});
    }
  }
}

=== FILE: records.dfy ===
/** The CSV rows that flow between the pipeline's stages. */
module Records {

  /** A row of the shot-description table: one numbered shot of the book. */
  datatype Shot = Shot(id: string, shotTitle: string, description: string)

  /** A row of the tagging output: one image variant of a shot, with its tag
      dictionary serialised into `tags`. */
  datatype TaggedRow = TaggedRow(id: string, shotTitle: string, description: string, tags: string)

  /** The image file of a row or variant id, `<id>.png`. */
  function ImageFile(id: string): string {
    id + ".png"
  }
}

=== FILE: search.dfy ===
/** `search.py`: the catalog is flattened into lower-cased candidate tags,
    the candidates found inside the query become the matched tags, and every
    tagged row is scored by how many matched tags occur in its tag string.
    Rows with a positive score are ranked by score and cut to `top_k`. */
module Search {
  import opened Text
  import opened Catalog
  import opened Records

  /** The number of labels in the whole catalog. */
  function LabelCount(catalog: Catalog): nat
    decreases |catalog|
  {
    if |catalog| == 0 then 0 else |catalog[0].labels| + LabelCount(catalog[1..])
  }

  /** `load_all_tags`: every label of every category, lower-cased, in catalog order. */
  function LoadAllTags(catalog: Catalog): (r: seq<string>)
    decreases |catalog|
    ensures |r| == LabelCount(catalog)
  {
    if |catalog| == 0 then []
    else
      var labels := catalog[0].labels;
      seq(|labels|, j requires 0 <= j < |labels| => Lower(labels[j])) + LoadAllTags(catalog[1..])
  }

  /** Label `j` of category `c` lands, lower-cased, right after the labels of
      the categories before `c`: order and duplicates are kept. */
  lemma {:induction false} LoadAllTagsPositions(catalog: Catalog, c: nat, j: nat)
    requires c < |catalog| && j < |catalog[c].labels|
    ensures LabelCount(catalog[..c]) + j < |LoadAllTags(catalog)|
    ensures LoadAllTags(catalog)[LabelCount(catalog[..c]) + j] == Lower(catalog[c].labels[j])
    decreases c
  {
    var head := catalog[0].labels;
    var tail := catalog[1..];
    assert |LoadAllTags(catalog)| == |head| + |LoadAllTags(tail)|;
    if c == 0 {
      assert catalog[..0] == [];
    } else {
      LoadAllTagsPositions(tail, c - 1, j);
      assert catalog[..c][0] == catalog[0] && catalog[..c][1..] == tail[..c - 1];
      assert LabelCount(catalog[..c]) == |head| + LabelCount(tail[..c - 1]);
    }
  }

  /** Every lower-cased catalog label is a candidate. */
  lemma CandidateOfLabel(catalog: Catalog, c: nat, j: nat)
    requires c < |catalog| && j < |catalog[c].labels|
    ensures Lower(catalog[c].labels[j]) in LoadAllTags(catalog)
  {
    LoadAllTagsPositions(catalog, c, j);
  }

  /** `match_query_to_tags`: the candidates that occur in the lower-cased
      query, each as often as it is listed. */
  function MatchQueryToTags(query: string, candidates: seq<string>): (r: seq<string>)
    decreases |candidates|
    ensures |r| <= |candidates|
    ensures forall t :: multiset(r)[t] == if IsSubstring(t, Lower(query)) then multiset(candidates)[t] else 0
  {
    if |candidates| == 0 then []
    else
      var rest := MatchQueryToTags(query, candidates[1..]);
      ContainsIsSubstring(Lower(query), candidates[0]);
      assert candidates == [candidates[0]] + candidates[1..];
      if Contains(Lower(query), candidates[0]) then [candidates[0]] + rest else rest
  }

  /** Matching keeps candidate order: it distributes over concatenation. */
  lemma {:induction false} MatchAppend(query: string, a: seq<string>, b: seq<string>)
    ensures MatchQueryToTags(query, a + b) == MatchQueryToTags(query, a) + MatchQueryToTags(query, b)
    decreases |a|
  {
    if |a| == 0 {
      assert a + b == b;
    } else {
      assert (a + b)[0] == a[0] && (a + b)[1..] == a[1..] + b;
      MatchAppend(query, a[1..], b);
    }
  }

  /** `score_tag_matches`: how many entries of `matched` occur in the
      lower-cased tag string, duplicates counted. */
  function ScoreTagMatches(rowTags: string, matched: seq<string>): (r: nat)
    decreases |matched|
    ensures r <= |matched|
    ensures r == |MatchQueryToTags(rowTags, matched)|
  {
    if |matched| == 0 then 0
    else (if Contains(Lower(rowTags), matched[0]) then 1 else 0) + ScoreTagMatches(rowTags, matched[1..])
  }

  /** A row scores zero exactly when none of the matched tags occurs in it. */
  lemma {:induction false} ScoreZeroIff(rowTags: string, matched: seq<string>)
    ensures ScoreTagMatches(rowTags, matched) == 0
        <==> forall n :: 0 <= n < |matched| ==> !IsSubstring(matched[n], Lower(rowTags))
    decreases |matched|
  {
    if |matched| > 0 {
      ContainsIsSubstring(Lower(rowTags), matched[0]);
      ScoreZeroIff(rowTags, matched[1..]);
      assert forall n :: 1 <= n < |matched| ==> matched[n] == matched[1..][n - 1];
    }
  }

  /** A tagged row with its score column. */
  datatype Hit = Hit(row: TaggedRow, score: nat)

  /** The score column: every row, in row order, paired with the number of
      matched tags its tag string contains. */
  function ScoreRows(rows: seq<TaggedRow>, matched: seq<string>): (r: seq<Hit>)
    ensures |r| == |rows|
    ensures forall n :: 0 <= n < |r| ==>
              r[n].row == rows[n] && r[n].score == ScoreTagMatches(rows[n].tags, matched)
              && r[n].score <= |matched|
              && (r[n].score == 0 <==> forall k :: 0 <= k < |matched| ==> !IsSubstring(matched[k], Lower(rows[n].tags)))
  {
    forall n | 0 <= n < |rows|
      ensures ScoreTagMatches(rows[n].tags, matched) == 0
          <==> forall k :: 0 <= k < |matched| ==> !IsSubstring(matched[k], Lower(rows[n].tags))
    {
      ScoreZeroIff(rows[n].tags, matched);
    }
    seq(|rows|, n requires 0 <= n < |rows| => Hit(rows[n], ScoreTagMatches(rows[n].tags, matched)))
  }

  /** The rows that match at least one tag: the hits with a positive score. */
  function Positive(hits: seq<Hit>): (r: seq<Hit>)
    decreases |hits|
    ensures forall h :: multiset(r)[h] == if h.score > 0 then multiset(hits)[h] else 0
  {
    if |hits| == 0 then []
    else
      assert hits == [hits[0]] + hits[1..];
      (if hits[0].score > 0 then [hits[0]] else []) + Positive(hits[1..])
  }

  predicate NonIncreasing(hits: seq<Hit>) {
    forall i, j :: 0 <= i < j < |hits| ==> hits[i].score >= hits[j].score
  }

  /** Inserts `h` into a ranked list ahead of every entry it does not trail. */
  function Insert(h: Hit, s: seq<Hit>): (r: seq<Hit>)
    requires NonIncreasing(s)
    decreases |s|
    ensures forall x :: x in r ==> x == h || x in s
    ensures NonIncreasing(r)
    ensures multiset(r) == multiset(s) + multiset{h}
  {
    if |s| == 0 || h.score >= s[0].score then [h] + s
    else
      assert s == [s[0]] + s[1..];
      var rest := Insert(h, s[1..]);
      assert forall x :: x in rest ==> x.score <= s[0].score;
      [s[0]] + rest
  }

  /** Pandas' descending sort on the score column; this insertion sort keeps equal
      scores in row order, which is one of the orders pandas may produce. */
  function SortByScore(hits: seq<Hit>): (r: seq<Hit>)
    decreases |hits|
    ensures NonIncreasing(r)
    ensures multiset(r) == multiset(hits)
  {
    if |hits| == 0 then []
    else
      assert hits == [hits[0]] + hits[1..];
      Insert(hits[0], SortByScore(hits[1..]))
  }

  /** How many rows `DataFrame.head(n)` keeps: the first `n`, or for a
      negative `n` all but the last `-n`. */
  function HeadLength(len: nat, n: int): (r: nat)
    ensures r <= len
    ensures n >= 0 ==> r <= n && (r == n || r == len)
    ensures n < 0 ==> r == if len + n > 0 then len + n else 0
  {
    if n >= 0 then (if n < len then n else len)
    else if len + n > 0 then len + n else 0
  }

  /** The outcome of `search_images`: no matched tag (the function returns an
      empty list), or the ranked rows. */
  datatype SearchResult = NoTagsMatched | Ranked(matched: seq<string>, hits: seq<Hit>)

  /** `search_images` over a catalog and the tagged rows. */
  function SearchImages(query: string, catalog: Catalog, rows: seq<TaggedRow>, topK: int): (r: SearchResult)
    ensures r.NoTagsMatched? <==> |MatchQueryToTags(query, LoadAllTags(catalog))| == 0
    ensures r.Ranked? ==>
              && r.matched == MatchQueryToTags(query, LoadAllTags(catalog))
              && NonIncreasing(r.hits)
              && (topK >= 0 ==> |r.hits| <= topK)
              && forall m :: 0 <= m < |r.hits| ==>
                   && r.hits[m].score > 0
                   && r.hits[m].row in rows
                   && r.hits[m].score == ScoreTagMatches(r.hits[m].row.tags, r.matched)
  {
    var matched := MatchQueryToTags(query, LoadAllTags(catalog));
    if |matched| == 0 then NoTagsMatched
    else
      var scored := ScoreRows(rows, matched);
      var ranked := SortByScore(Positive(scored));
      var n := HeadLength(|ranked|, topK);
      HitsFromRows(rows, matched, n);
      Ranked(matched, ranked[..n])
  }

  /** Every hit drawn from the positive, sorted rows is a row with its own score. */
  lemma HitsFromRows(rows: seq<TaggedRow>, matched: seq<string>, n: nat)
    requires n <= |SortByScore(Positive(ScoreRows(rows, matched)))|
    ensures var hits := SortByScore(Positive(ScoreRows(rows, matched)))[..n];
            forall m :: 0 <= m < |hits| ==>
              && hits[m].score > 0
              && hits[m].row in rows
              && hits[m].score == ScoreTagMatches(hits[m].row.tags, matched)
  {
    var scored := ScoreRows(rows, matched);
    var ranked := SortByScore(Positive(scored));
    var hits := ranked[..n];
    forall m | 0 <= m < |hits|
      ensures hits[m].score > 0 && hits[m].row in rows
      ensures hits[m].score == ScoreTagMatches(hits[m].row.tags, matched)
    {
      var h := hits[m];
      assert h == ranked[m];
      assert h in multiset(ranked);
      assert h in multiset(Positive(scored));
      assert h in multiset(scored);
      var k :| 0 <= k < |scored| && scored[k] == h;
    }
  }

  /** The ranked rows are the best of the positive-scored rows: a sub-multiset
      of them, as many as `head(top_k)` keeps, and no left-out row scores
      higher than a kept one. */
  lemma SearchKeepsBest(query: string, catalog: Catalog, rows: seq<TaggedRow>, topK: int)
    ensures var r := SearchImages(query, catalog, rows, topK);
            r.Ranked? ==>
              var candidates := Positive(ScoreRows(rows, r.matched));
              && multiset(r.hits) <= multiset(candidates)
              && |r.hits| == HeadLength(|candidates|, topK)
              && forall h, m :: h in multiset(candidates) - multiset(r.hits) && 0 <= m < |r.hits| ==>
                   h.score <= r.hits[m].score
  {
    var r := SearchImages(query, catalog, rows, topK);
    if r.Ranked? {
      var candidates := Positive(ScoreRows(rows, r.matched));
      var ranked := SortByScore(candidates);
      PrefixKeepsBest(ranked, HeadLength(|ranked|, topK));
    }
  }

  /** The `top_k` that `search_images` uses when the caller gives none. */
  const DefaultTopK: int := 5

  /** With the default `top_k`, a search keeps the five best positive rows,
      or all of them when fewer than five score above 0. */
  lemma DefaultSearchKeepsFive(query: string, catalog: Catalog, rows: seq<TaggedRow>)
    ensures var r := SearchImages(query, catalog, rows, DefaultTopK);
            r.Ranked? ==>
              var candidates := Positive(ScoreRows(rows, r.matched));
              |r.hits| == if |candidates| < 5 then |candidates| else 5
  {
    SearchKeepsBest(query, catalog, rows, DefaultTopK);
  }

  /** A prefix of a ranked list holds its best entries. */
  lemma PrefixKeepsBest(ranked: seq<Hit>, n: nat)
    requires NonIncreasing(ranked) && n <= |ranked|
    ensures multiset(ranked[..n]) <= multiset(ranked)
    ensures forall h, m :: h in multiset(ranked) - multiset(ranked[..n]) && 0 <= m < n ==>
              h.score <= ranked[m].score
  {
    assert ranked == ranked[..n] + ranked[n..];
    assert multiset(ranked) == multiset(ranked[..n]) + multiset(ranked[n..]);
    forall h, m | h in multiset(ranked) - multiset(ranked[..n]) && 0 <= m < n
      ensures h.score <= ranked[m].score
    {
      assert h in multiset(ranked[n..]);
      var j :| 0 <= j < |ranked[n..]| && ranked[n..][j] == h;
      assert ranked[n + j] == h;
    }
  }
}

=== FILE: tag_generator.dfy ===
/** `TagGenerator.generate_tags`: for every catalog category, the labels at
    the category's top-k similarity indices. The CLIP image/text encoders
    are replaced by the per-category score vectors they would produce. */
module TagGenerator {
  import opened Catalog
  import opened Ranking

  /** One entry of the returned tag dictionary. */
  datatype Selection = Selection(category: string, labels: seq<string>)

  /** The labels of one category that `topk` picks, best first. */
  function SelectCategory(cat: Category, scores: seq<real>): (r: seq<string>)
    requires |scores| == |cat.labels| && !Short(cat)
    ensures exists idx ::
              && IsRankedTopK(scores, K(cat.name), idx)
              && |r| == |idx|
              && forall m :: 0 <= m < |r| ==> r[m] == cat.labels[idx[m]]
  {
    var top := TopK(scores, K(cat.name));
    seq(|top|, m requires 0 <= m < |top| => cat.labels[top[m]])
  }

  /** The tag dictionary for one image whose similarity scores are `scores`;
      fails with the first category that has fewer labels than its k. */
  function GenerateTags(catalog: Catalog, scores: seq<seq<real>>): (r: Result<seq<Selection>>)
    requires Aligned(catalog, scores)
    ensures r.Success? <==> Selectable(catalog)
    ensures r.Failure? ==> exists c ::
              && 0 <= c < |catalog| && Short(catalog[c]) && r.error == ErrorAt(catalog[c])
              && forall d :: 0 <= d < c ==> !Short(catalog[d])
    ensures r.Success? ==>
              && |r.value| == |catalog|
              && forall c :: 0 <= c < |catalog| ==>
                   && r.value[c].category == catalog[c].name
                   && r.value[c].labels == SelectCategory(catalog[c], scores[c])
  {
    if Selectable(catalog) then
      Success(seq(|catalog|, c requires 0 <= c < |catalog| =>
        Selection(catalog[c].name, SelectCategory(catalog[c], scores[c]))))
    else
      Failure(ShortError(catalog))
  }

  /** `generate_tags` as called, with the shot description: the description
      is accepted and never read, so the outcome is the tagging of the image
      alone (see `DescriptionIgnored`). */
  function GenerateTagsFor(catalog: Catalog, scores: seq<seq<real>>, description: string): (r: Result<seq<Selection>>)
    requires Aligned(catalog, scores)
    ensures r.Success? <==> Selectable(catalog)
    ensures r.Failure? ==> r.error == ShortError(catalog)
    ensures r.Success? ==>
              && |r.value| == |catalog|
              && forall c :: 0 <= c < |catalog| ==>
                   && r.value[c].category == catalog[c].name
                   && r.value[c].labels == SelectCategory(catalog[c], scores[c])
  {
    GenerateTags(catalog, scores)
  }

  /** Two descriptions give the same tags. */
  lemma DescriptionIgnored(catalog: Catalog, scores: seq<seq<real>>, d1: string, d2: string)
    requires Aligned(catalog, scores)
    ensures GenerateTagsFor(catalog, scores, d1) == GenerateTagsFor(catalog, scores, d2)
  {
  }

  /** The per-category guarantees of a successful tagging: k labels, each a
      label of that category, taken from distinct indices, in non-increasing
      score order, none scoring below an unselected label. */
  lemma SelectionProperties(catalog: Catalog, scores: seq<seq<real>>, c: nat)
    requires Aligned(catalog, scores) && Selectable(catalog) && c < |catalog|
    ensures var sel := GenerateTags(catalog, scores).value[c].labels;
            var top := TopK(scores[c], K(catalog[c].name));
            && |sel| == (if catalog[c].name == RelationalExpression then 2 else 1)
            && (forall m :: 0 <= m < |sel| ==> sel[m] == catalog[c].labels[top[m]] && sel[m] in catalog[c].labels)
            && IsTopK(scores[c], |sel|, top)
  {
    var sel := GenerateTags(catalog, scores).value[c].labels;
    var idx :| && IsRankedTopK(scores[c], K(catalog[c].name), idx)
               && |sel| == |idx|
               && forall m :: 0 <= m < |sel| ==> sel[m] == catalog[c].labels[idx[m]];
    RankedTopKUnique(scores[c], K(catalog[c].name), idx, TopK(scores[c], K(catalog[c].name)));
  }
}

=== FILE: tag_validator.dfy ===
/** `validate_tags`: re-scores every tagged image against the whole catalog
    and reports each label that is outside its category's top-k AND scores
    below the threshold. */
module TagValidator {
  import opened Catalog
  import opened Ranking
  import opened TagGenerator
  import opened Records

  /** The default `threshold` argument of `validate_tags`. */
  const DefaultThreshold: real := 0.25

  /** One reported entry, `"<category>: <label> (score=...)"` before formatting. */
  datatype Unreliable = Unreliable(category: string, tag: string, score: real)

  /** One output row: the tagged row's id and its unreliable entries. */
  datatype ValidationResult = ValidationResult(id: string, unreliable: seq<Unreliable>)

  /** The condition under which label `i` is reported. */
  predicate Flagged(scores: seq<real>, top: seq<nat>, threshold: real, i: nat)
    requires i < |scores|
  {
    i !in top && scores[i] < threshold
  }

  /** The label indices at or after `from` that are reported, in index order. */
  function FlaggedIndices(scores: seq<real>, top: seq<nat>, threshold: real, from: nat): (r: seq<nat>)
    decreases |scores| - from
    ensures Increasing(r)
    ensures forall m :: 0 <= m < |r| ==> from <= r[m] < |scores|
    ensures forall i :: from <= i < |scores| ==> (i in r <==> Flagged(scores, top, threshold, i))
  {
    if from >= |scores| then []
    else
      var rest := FlaggedIndices(scores, top, threshold, from + 1);
      if Flagged(scores, top, threshold, from) then [from] + rest else rest
  }

  /** The reported entries of one category, in label order: each names the
      category and one of its labels, with a score below the threshold. */
  function ValidateCategory(cat: Category, scores: seq<real>, threshold: real): (r: seq<Unreliable>)
    requires |scores| == |cat.labels| && !Short(cat)
    ensures forall m :: 0 <= m < |r| ==>
              r[m].category == cat.name && r[m].tag in cat.labels && r[m].score < threshold
  {
    var idx := FlaggedIndices(scores, TopK(scores, K(cat.name)), threshold, 0);
    forall m | 0 <= m < |idx|
      ensures cat.labels[idx[m]] in cat.labels && scores[idx[m]] < threshold
    {
      assert idx[m] in idx;
      assert Flagged(scores, TopK(scores, K(cat.name)), threshold, idx[m]);
    }
    seq(|idx|, m requires 0 <= m < |idx| => Unreliable(cat.name, cat.labels[idx[m]], scores[idx[m]]))
  }

  /** A category's entries are exactly its labels outside the top-k and
      below the threshold, each with its own score, in label order. */
  lemma ValidateCategorySpec(cat: Category, scores: seq<real>, threshold: real)
    requires |scores| == |cat.labels| && !Short(cat)
    ensures var r := ValidateCategory(cat, scores, threshold);
            exists idx: seq<nat> ::
              && |idx| == |r|
              && Increasing(idx)
              && (forall m :: 0 <= m < |idx| ==>
                    idx[m] < |cat.labels| && r[m] == Unreliable(cat.name, cat.labels[idx[m]], scores[idx[m]]))
              && (forall i :: 0 <= i < |cat.labels| ==>
                    (i in idx <==> i !in TopK(scores, K(cat.name)) && scores[i] < threshold))
  {
    var idx := FlaggedIndices(scores, TopK(scores, K(cat.name)), threshold, 0);
    assert |idx| == |ValidateCategory(cat, scores, threshold)|;
  }

  /** `e` reports label `i` of `cat`: with its own score, outside the top-k
      and below the threshold. */
  predicate EntryAt(cat: Category, scores: seq<real>, threshold: real, e: Unreliable, i: int)
    requires |scores| == |cat.labels| && !Short(cat)
  {
    && 0 <= i < |cat.labels|
    && e == Unreliable(cat.name, cat.labels[i], scores[i])
    && i !in TopK(scores, K(cat.name))
    && scores[i] < threshold
  }

  /** An entry of one category names a label outside the top-k and below the threshold. */
  lemma CategoryEntryOrigin(cat: Category, scores: seq<real>, threshold: real, e: Unreliable)
    requires |scores| == |cat.labels| && !Short(cat)
    requires e in ValidateCategory(cat, scores, threshold)
    ensures exists i :: EntryAt(cat, scores, threshold, e, i)
  {
    var idx := FlaggedIndices(scores, TopK(scores, K(cat.name)), threshold, 0);
    var r := ValidateCategory(cat, scores, threshold);
    var m :| 0 <= m < |r| && r[m] == e;
    assert idx[m] in idx;
    assert EntryAt(cat, scores, threshold, e, idx[m]);
  }

  /** At most `|labels| - k` entries per category: the k selected indices are never reported. */
  lemma ValidateCategoryBound(cat: Category, scores: seq<real>, threshold: real)
    requires |scores| == |cat.labels| && !Short(cat)
    ensures |ValidateCategory(cat, scores, threshold)| <= |cat.labels| - K(cat.name)
  {
    var top := TopK(scores, K(cat.name));
    var idx := FlaggedIndices(scores, top, threshold, 0);
    var n := |scores|;
    assert Elements(idx) !! Elements(top);
    assert Elements(idx) + Elements(top) <= Range(n);
    DistinctCard(idx);
    DistinctCard(top);
    RangeCard(n);
    SubsetCard(Elements(idx) + Elements(top), Range(n));
  }

  /** The entries of every category, category by category; each scores
      below the threshold. */
  function ValidateCategories(catalog: Catalog, scores: seq<seq<real>>, threshold: real): (r: seq<Unreliable>)
    requires Aligned(catalog, scores) && Selectable(catalog)
    decreases |catalog|
    ensures forall m :: 0 <= m < |r| ==> r[m].score < threshold
  {
    if |catalog| == 0 then []
    else ValidateCategory(catalog[0], scores[0], threshold) + ValidateCategories(catalog[1..], scores[1..], threshold)
  }

  /** Validation of one image: raises, like the tagger, on the first short category. */
  function ValidateImage(catalog: Catalog, scores: seq<seq<real>>, threshold: real): (r: Result<seq<Unreliable>>)
    requires Aligned(catalog, scores)
    ensures r.Success? <==> Selectable(catalog)
    ensures r.Failure? ==> GenerateTags(catalog, scores).Failure? && r.error == GenerateTags(catalog, scores).error
    ensures r.Success? ==> r.value == ValidateCategories(catalog, scores, threshold)
  {
    if Selectable(catalog) then Success(ValidateCategories(catalog, scores, threshold))
    else Failure(ShortError(catalog))
  }

  /** Entries are grouped by category in catalog order: validating a split
      catalog is validating each part and concatenating. */
  lemma {:induction false} ValidateCategoriesAppend(c1: Catalog, s1: seq<seq<real>>, c2: Catalog, s2: seq<seq<real>>, threshold: real)
    requires Aligned(c1, s1) && Selectable(c1) && Aligned(c2, s2) && Selectable(c2)
    ensures Aligned(c1 + c2, s1 + s2) && Selectable(c1 + c2)
    ensures ValidateCategories(c1 + c2, s1 + s2, threshold)
         == ValidateCategories(c1, s1, threshold) + ValidateCategories(c2, s2, threshold)
    decreases |c1|
  {
    JoinedCatalog(c1, s1, c2, s2);
    if |c1| > 0 {
      var c, s := c1 + c2, s1 + s2;
      assert c[0] == c1[0] && s[0] == s1[0];
      assert c[1..] == c1[1..] + c2 && s[1..] == s1[1..] + s2;
      ValidateCategoriesAppend(c1[1..], s1[1..], c2, s2, threshold);
      var head := ValidateCategory(c1[0], s1[0], threshold);
      var tail1 := ValidateCategories(c1[1..], s1[1..], threshold);
      var v2 := ValidateCategories(c2, s2, threshold);
      assert ValidateCategories(c, s, threshold) == head + (tail1 + v2);
      assert ValidateCategories(c1, s1, threshold) == head + tail1;
      ConcatAssociative(head, tail1, v2);
    } else {
      assert c1 + c2 == c2 && s1 + s2 == s2;
    }
  }

  lemma ConcatAssociative<T>(a: seq<T>, b: seq<T>, c: seq<T>)
    ensures a + (b + c) == (a + b) + c
  {
  }

  lemma JoinedCatalog(c1: Catalog, s1: seq<seq<real>>, c2: Catalog, s2: seq<seq<real>>)
    requires Aligned(c1, s1) && Selectable(c1) && Aligned(c2, s2) && Selectable(c2)
    ensures Aligned(c1 + c2, s1 + s2) && Selectable(c1 + c2)
  {
    var c, s := c1 + c2, s1 + s2;
    forall i | 0 <= i < |c|
      ensures |s[i]| == |c[i].labels| && !Short(c[i])
    {
      if i < |c1| {
        assert c[i] == c1[i] && s[i] == s1[i];
      } else {
        assert c[i] == c2[i - |c1|] && s[i] == s2[i - |c1|];
      }
    }
  }

  /** The converse of `EntryOrigin`: every label outside its category's
      top-k and below the threshold is among the image's entries. */
  lemma {:induction false} EntryComplete(catalog: Catalog, scores: seq<seq<real>>, threshold: real, c: nat, i: nat)
    requires Aligned(catalog, scores) && Selectable(catalog)
    requires c < |catalog| && i < |catalog[c].labels|
    requires i !in TopK(scores[c], K(catalog[c].name)) && scores[c][i] < threshold
    ensures Unreliable(catalog[c].name, catalog[c].labels[i], scores[c][i]) in ValidateCategories(catalog, scores, threshold)
    decreases c
  {
    if c == 0 {
      ValidateCategorySpec(catalog[0], scores[0], threshold);
    } else {
      EntryComplete(catalog[1..], scores[1..], threshold, c - 1, i);
    }
  }

  /** Every entry comes from a category `c` and a label index `i` that is
      outside that category's top-k and below the threshold. */
  lemma {:induction false} EntryOrigin(catalog: Catalog, scores: seq<seq<real>>, threshold: real, e: Unreliable)
    requires Aligned(catalog, scores) && Selectable(catalog)
    requires e in ValidateCategories(catalog, scores, threshold)
    ensures exists c, i :: 0 <= c < |catalog| && EntryAt(catalog[c], scores[c], threshold, e, i)
    decreases |catalog|
  {
    if e in ValidateCategory(catalog[0], scores[0], threshold) {
      CategoryEntryOrigin(catalog[0], scores[0], threshold, e);
      var i :| EntryAt(catalog[0], scores[0], threshold, e, i);
      assert EntryAt(catalog[0], scores[0], threshold, e, i);
    } else {
      EntryOrigin(catalog[1..], scores[1..], threshold, e);
      var c, i :| 0 <= c < |catalog[1..]| && EntryAt(catalog[1..][c], scores[1..][c], threshold, e, i);
      assert catalog[1..][c] == catalog[c + 1] && scores[1..][c] == scores[c + 1];
      assert EntryAt(catalog[c + 1], scores[c + 1], threshold, e, i);
    }
  }

  /** Validation agrees with tagging: on the scores the tagger saw, no label
      the tagger selected for a category is reported for that category
      (labels within a category distinct, category names distinct). */
  lemma SelectedNeverFlagged(catalog: Catalog, scores: seq<seq<real>>, threshold: real, c: nat)
    requires Aligned(catalog, scores) && Selectable(catalog) && c < |catalog|
    requires DistinctNames(catalog) && DistinctLabels(catalog[c])
    ensures forall e :: e in ValidateImage(catalog, scores, threshold).value && e.category == catalog[c].name ==>
              e.tag !in GenerateTags(catalog, scores).value[c].labels
  {
    forall e | e in ValidateImage(catalog, scores, threshold).value && e.category == catalog[c].name
      ensures e.tag !in GenerateTags(catalog, scores).value[c].labels
    {
      EntryOrigin(catalog, scores, threshold, e);
      var c', i :| 0 <= c' < |catalog| && EntryAt(catalog[c'], scores[c'], threshold, e, i);
      assert c' == c;
      UnselectedLabel(catalog, scores, c, i);
    }
  }

  /** With distinct labels, a label outside the top-k indices was not selected. */
  lemma UnselectedLabel(catalog: Catalog, scores: seq<seq<real>>, c: nat, i: nat)
    requires Aligned(catalog, scores) && Selectable(catalog) && c < |catalog|
    requires DistinctLabels(catalog[c]) && i < |catalog[c].labels|
    requires i !in TopK(scores[c], K(catalog[c].name))
    ensures catalog[c].labels[i] !in GenerateTags(catalog, scores).value[c].labels
  {
    var sel := GenerateTags(catalog, scores).value[c].labels;
    var top := TopK(scores[c], K(catalog[c].name));
    SelectionProperties(catalog, scores, c);
    forall m | 0 <= m < |sel|
      ensures sel[m] != catalog[c].labels[i]
    {
      assert top[m] != i;
    }
  }

  /** The ids, in row order, whose image exists: the rows the loop does not skip. */
  function PresentIds(ids: seq<string>, imageExists: string -> bool): (r: seq<string>)
    decreases |ids|
    ensures |r| <= |ids|
    ensures forall x :: x in r <==> x in ids && imageExists(ImageFile(x))
  {
    if |ids| == 0 then []
    else
      (if imageExists(ImageFile(ids[0])) then [ids[0]] else []) + PresentIds(ids[1..], imageExists)
  }

  /** The ids of a list of results, in order. */
  function ResultIds(vs: seq<ValidationResult>): seq<string>
    decreases |vs|
  {
    if |vs| == 0 then [] else [vs[0].id] + ResultIds(vs[1..])
  }

  lemma {:induction false} ResultIdsAppend(a: seq<ValidationResult>, b: seq<ValidationResult>)
    ensures ResultIds(a + b) == ResultIds(a) + ResultIds(b)
    decreases |a|
  {
    if |a| == 0 {
      assert a + b == b;
    } else {
      assert (a + b)[0] == a[0] && (a + b)[1..] == a[1..] + b;
      ResultIdsAppend(a[1..], b);
    }
  }

  /** `validate_tags` over the tagged rows' ids: rows whose image is missing
      are skipped, every other row gets exactly one result, in row order,
      carrying its image's entries; the first image on which a pass over the
      catalog raises ends the run with that error. */
  function ValidateTags(ids: seq<string>, catalog: Catalog, imageExists: string -> bool,
                        scoresOf: string -> seq<seq<real>>, threshold: real): (r: Result<seq<ValidationResult>>)
    requires forall f :: imageExists(f) ==> Aligned(catalog, scoresOf(f))
    decreases |ids|
    ensures r.Success? <==> Selectable(catalog) || forall n :: 0 <= n < |ids| ==> !imageExists(ImageFile(ids[n]))
    ensures r.Failure? ==> r.error == ShortError(catalog)
    ensures r.Success? ==>
              && ResultIds(r.value) == PresentIds(ids, imageExists)
              && forall v :: v in r.value ==>
                   && imageExists(ImageFile(v.id))
                   && Success(v.unreliable) == ValidateImage(catalog, scoresOf(ImageFile(v.id)), threshold)
  {
    if |ids| == 0 then Success([])
    else
      var row := ValidateRow(ids[0], catalog, imageExists, scoresOf, threshold);
      var rest := ValidateTags(ids[1..], catalog, imageExists, scoresOf, threshold);
      if row.Success? && rest.Success? then ResultIdsAppend(row.value, rest.value); Then(row, rest)
      else Then(row, rest)
  }

  /** The contribution of one row: nothing when its image is missing, else one
      result carrying the image's entries, or the error the image raises. */
  function ValidateRow(id: string, catalog: Catalog, imageExists: string -> bool,
                       scoresOf: string -> seq<seq<real>>, threshold: real): (r: Result<seq<ValidationResult>>)
    requires forall f :: imageExists(f) ==> Aligned(catalog, scoresOf(f))
    ensures r.Success? <==> Selectable(catalog) || !imageExists(ImageFile(id))
    ensures r.Failure? ==> r.error == ShortError(catalog)
    ensures r.Success? ==>
              && ResultIds(r.value) == (if imageExists(ImageFile(id)) then [id] else [])
              && forall v :: v in r.value ==>
                   && imageExists(ImageFile(v.id))
                   && Success(v.unreliable) == ValidateImage(catalog, scoresOf(ImageFile(v.id)), threshold)
  {
    var file := ImageFile(id);
    if !imageExists(file) then Success([])
    else
      match ValidateImage(catalog, scoresOf(file), threshold)
      case Failure(e) => Failure(e)
      case Success(entries) => Success([ValidationResult(id, entries)])
  }

  /** Validation runs row by row: validating two row lists one after the other
      is validating their concatenation, and the first failure wins. */
  lemma {:induction false} ValidateTagsAppend(ids1: seq<string>, ids2: seq<string>, catalog: Catalog,
                                              imageExists: string -> bool, scoresOf: string -> seq<seq<real>>,
                                              threshold: real)
    requires forall f :: imageExists(f) ==> Aligned(catalog, scoresOf(f))
    ensures ValidateTags(ids1 + ids2, catalog, imageExists, scoresOf, threshold)
         == Then(ValidateTags(ids1, catalog, imageExists, scoresOf, threshold),
                 ValidateTags(ids2, catalog, imageExists, scoresOf, threshold))
    decreases |ids1|
  {
    if |ids1| == 0 {
      assert ids1 + ids2 == ids2;
      ThenSuccessEmpty(ValidateTags(ids2, catalog, imageExists, scoresOf, threshold));
    } else {
      var a := ValidateRow(ids1[0], catalog, imageExists, scoresOf, threshold);
      var b := ValidateTags(ids1[1..], catalog, imageExists, scoresOf, threshold);
      var c := ValidateTags(ids2, catalog, imageExists, scoresOf, threshold);
      assert ids1 == [ids1[0]] + ids1[1..];
      assert ids1 + ids2 == [ids1[0]] + (ids1[1..] + ids2);
      ValidateTagsCons(ids1[0], ids1[1..] + ids2, catalog, imageExists, scoresOf, threshold);
      ValidateTagsCons(ids1[0], ids1[1..], catalog, imageExists, scoresOf, threshold);
      ValidateTagsAppend(ids1[1..], ids2, catalog, imageExists, scoresOf, threshold);
      ThenAssociative(a, b, c);
    }
  }

  /** One step of the row loop, on a list written as its head and tail. */
  lemma ValidateTagsCons(id: string, rest: seq<string>, catalog: Catalog, imageExists: string -> bool,
                         scoresOf: string -> seq<seq<real>>, threshold: real)
    requires forall f :: imageExists(f) ==> Aligned(catalog, scoresOf(f))
    ensures ValidateTags([id] + rest, catalog, imageExists, scoresOf, threshold)
         == Then(ValidateRow(id, catalog, imageExists, scoresOf, threshold),
                 ValidateTags(rest, catalog, imageExists, scoresOf, threshold))
  {
    var ids := [id] + rest;
    assert ids[0] == id && ids[1..] == rest;
    ValidateTagsUnfold(ids, catalog, imageExists, scoresOf, threshold);
  }

  /** One step of the row loop. */
  lemma ValidateTagsUnfold(ids: seq<string>, catalog: Catalog, imageExists: string -> bool,
                           scoresOf: string -> seq<seq<real>>, threshold: real)
    requires forall f :: imageExists(f) ==> Aligned(catalog, scoresOf(f))
    requires |ids| > 0
    ensures ValidateTags(ids, catalog, imageExists, scoresOf, threshold)
         == Then(ValidateRow(ids[0], catalog, imageExists, scoresOf, threshold),
                 ValidateTags(ids[1..], catalog, imageExists, scoresOf, threshold))
  {
  }

  /** A row whose image exists gets one result: its id with that image's entries. */
  lemma SingleRowValidation(id: string, catalog: Catalog, imageExists: string -> bool,
                            scoresOf: string -> seq<seq<real>>, threshold: real)
    requires forall f :: imageExists(f) ==> Aligned(catalog, scoresOf(f))
    requires imageExists(ImageFile(id)) && Selectable(catalog)
    ensures ValidateTags([id], catalog, imageExists, scoresOf, threshold)
         == Success([ValidationResult(id, ValidateImage(catalog, scoresOf(ImageFile(id)), threshold).value)])
  {
    var file := ImageFile(id);
    assert [id][0] == id && [id][1..] == [];
    assert Aligned(catalog, scoresOf(file));
    assert ValidateImage(catalog, scoresOf(file), threshold).Success?;
    assert ValidateTags([], catalog, imageExists, scoresOf, threshold) == Success([]);
    var entries := ValidateImage(catalog, scoresOf(file), threshold).value;
    assert [ValidationResult(id, entries)] + [] == [ValidationResult(id, entries)];
  }

  /** A row whose image is missing is skipped: it gets no result and cannot fail. */
  lemma MissingRowSkipped(id: string, catalog: Catalog, imageExists: string -> bool,
                          scoresOf: string -> seq<seq<real>>, threshold: real)
    requires forall f :: imageExists(f) ==> Aligned(catalog, scoresOf(f))
    requires !imageExists(ImageFile(id))
    ensures ValidateTags([id], catalog, imageExists, scoresOf, threshold) == Success([])
  {
    assert [id][0] == id && [id][1..] == [];
  }

  /** At the default threshold, a score of exactly 0.25 is not reported: the
      comparison is strict. */
  lemma DefaultThresholdIsStrict()
    ensures ValidateCategory(Category("Shot Size", ["close-up", "medium", "wide"]), [0.3, 0.25, 0.1], DefaultThreshold)
         == [Unreliable("Shot Size", "wide", 0.1)]
  {
    var cat := Category("Shot Size", ["close-up", "medium", "wide"]);
    var scores := [0.3, 0.25, 0.1];
    assert K(cat.name) == 1 by { assert |cat.name| != |RelationalExpression|; }
    FirstOfThreeOnTop(scores);
    assert FlaggedIndices(scores, [0], DefaultThreshold, 3) == [];
    assert FlaggedIndices(scores, [0], DefaultThreshold, 2) == [2];
    assert FlaggedIndices(scores, [0], DefaultThreshold, 1) == [2];
    assert FlaggedIndices(scores, [0], DefaultThreshold, 0) == [2];
  }

  /** At the default threshold, the best label is kept even when it scores
      below 0.25, while every other label below 0.25 is reported. */
  lemma DefaultThresholdKeepsBest()
    ensures ValidateCategory(Category("Shot Size", ["close-up", "medium", "wide"]), [0.2, 0.1, 0.05], DefaultThreshold)
         == [Unreliable("Shot Size", "medium", 0.1), Unreliable("Shot Size", "wide", 0.05)]
  {
    var cat := Category("Shot Size", ["close-up", "medium", "wide"]);
    var scores := [0.2, 0.1, 0.05];
    assert K(cat.name) == 1 by { assert |cat.name| != |RelationalExpression|; }
    FirstOfThreeOnTop(scores);
    BelowBestFlagged(scores);
    var r := ValidateCategory(cat, scores, DefaultThreshold);
    assert |r| == 2;
    assert r[0] == Unreliable("Shot Size", "medium", 0.1);
    assert r[1] == Unreliable("Shot Size", "wide", 0.05);
  }

  /** The reported indices when all three scores are below the default
      threshold and the first is the top-1. */
  lemma BelowBestFlagged(scores: seq<real>)
    requires scores == [0.2, 0.1, 0.05]
    ensures FlaggedIndices(scores, [0], DefaultThreshold, 0) == [1, 2]
  {
    assert FlaggedIndices(scores, [0], DefaultThreshold, 3) == [];
    assert FlaggedIndices(scores, [0], DefaultThreshold, 2) == [2];
    assert FlaggedIndices(scores, [0], DefaultThreshold, 1) == [1, 2];
  }

  /** Of three scores, a strictly highest first one is the whole top-1. */
  lemma FirstOfThreeOnTop(s: seq<real>)
    requires |s| == 3 && s[0] > s[1] && s[0] > s[2]
    ensures TopK(s, 1) == [0]
  {
    assert Outranks(s, 0, 1) && Outranks(s, 0, 2);
    assert forall i :: 0 <= i < |s| && i !in [0] ==> i == 1 || i == 2;
    assert IsRankedTopK(s, 1, [0]);
    RankedTopKUnique(s, 1, [0], TopK(s, 1));
  }
}

=== FILE: tagging.dfy ===
/** The tagging loop of `main.py`: every shot is expanded into the image
    variants `a`, `b`, `c`; a variant whose image file is missing is
    skipped, and every other one becomes a row whose `tags` column is the
    serialised tag dictionary of its image. Image existence and the image's
    similarity scores are parameters. */
module Tagging {
  import opened Text
  import opened Catalog
  import opened Ranking
  import opened Records
  import opened TagGenerator
  import opened TagValidator
  import opened Search

  /** The variant suffixes, in the order the loop visits them. */
  const Suffixes: seq<string> := ["a", "b", "c"]

  /** The tag string of a tag dictionary: each category becomes its name,
      a colon and a space, then its labels joined by comma-space; the
      categories are joined by comma-space too. Every category heading and
      every selected label occurs in the string. */
  function SerialiseTags(tags: seq<Selection>): (r: string)
    ensures forall c :: 0 <= c < |tags| ==> IsSubstring(tags[c].category + ": ", r)
    ensures forall c, m :: 0 <= c < |tags| && 0 <= m < |tags[c].labels| ==> IsSubstring(tags[c].labels[m], r)
  {
    var parts := seq(|tags|, c requires 0 <= c < |tags| => tags[c].category + ": " + Join(", ", tags[c].labels));
    forall c | 0 <= c < |tags|
      ensures IsSubstring(tags[c].category + ": ", Join(", ", parts))
      ensures forall m :: 0 <= m < |tags[c].labels| ==> IsSubstring(tags[c].labels[m], Join(", ", parts))
    {
      PartInJoin(", ", parts, c);
      var heading := tags[c].category + ": ";
      assert heading[0..|heading|] == heading;
      SubstringInfix(tags[c].category + ": ", "", tags[c].category + ": ", Join(", ", tags[c].labels));
      assert "" + (tags[c].category + ": ") + Join(", ", tags[c].labels) == parts[c];
      SubstringTransitive(tags[c].category + ": ", parts[c], Join(", ", parts));
      forall m | 0 <= m < |tags[c].labels|
        ensures IsSubstring(tags[c].labels[m], Join(", ", parts))
      {
        PartInJoin(", ", tags[c].labels, m);
        SubstringInfix(tags[c].labels[m], tags[c].category + ": ", Join(", ", tags[c].labels), "");
        assert tags[c].category + ": " + Join(", ", tags[c].labels) + "" == parts[c];
        SubstringTransitive(tags[c].labels[m], parts[c], Join(", ", parts));
      }
    }
    Join(", ", parts)
  }

  /** The category and label separators coincide, so the tag string does not
      determine the dictionary: one label containing ", " reads as two labels. */
  lemma SerialiseNotInjective()
    ensures var one := [Selection("Relational Expression", ["two people, arguing"])];
            var two := [Selection("Relational Expression", ["two people", "arguing"])];
            one != two && SerialiseTags(one) == SerialiseTags(two)
  {
    var one := [Selection("Relational Expression", ["two people, arguing"])];
    var two := [Selection("Relational Expression", ["two people", "arguing"])];
    assert one[0].labels != two[0].labels;
    SingleCategoryTags("Relational Expression", ["two people, arguing"]);
    SingleCategoryTags("Relational Expression", ["two people", "arguing"]);
    assert Join(", ", ["two people", "arguing"]) == "two people" + ", " + "arguing";
  }

  /** Likewise one label containing ", B: " reads as a second category. */
  lemma SerialiseMergesCategories()
    ensures var one := [Selection("A", ["x, B: y"])];
            var two := [Selection("A", ["x"]), Selection("B", ["y"])];
            one != two && SerialiseTags(one) == SerialiseTags(two)
  {
    var one := [Selection("A", ["x, B: y"])];
    var two := [Selection("A", ["x"]), Selection("B", ["y"])];
    assert |one| != |two|;
    SingleCategoryTags("A", ["x, B: y"]);
    assert Join(", ", ["x, B: y"]) == "x, B: y";
    var parts := seq(|two|, c requires 0 <= c < |two| => two[c].category + ": " + Join(", ", two[c].labels));
    assert Join(", ", ["x"]) == "x" && Join(", ", ["y"]) == "y";
    assert parts[0] == "A: x" && parts[1] == "B: y";
    assert parts == ["A: x", "B: y"];
    assert Join(", ", parts) == "A: x" + ", " + "B: y";
  }

  /** Categories are serialised in dictionary order, one after another, with
      the same comma-space between them as between labels. */
  lemma SerialiseAppend(a: seq<Selection>, b: seq<Selection>)
    requires |a| > 0 && |b| > 0
    ensures SerialiseTags(a + b) == SerialiseTags(a) + ", " + SerialiseTags(b)
  {
    var pa := seq(|a|, c requires 0 <= c < |a| => a[c].category + ": " + Join(", ", a[c].labels));
    var pb := seq(|b|, c requires 0 <= c < |b| => b[c].category + ": " + Join(", ", b[c].labels));
    var ab := a + b;
    var pab := seq(|ab|, c requires 0 <= c < |ab| => ab[c].category + ": " + Join(", ", ab[c].labels));
    assert pab == pa + pb;
    JoinAppend(", ", pa, pb);
  }

  /** The tag string of a one-category dictionary. */
  lemma SingleCategoryTags(name: string, labels: seq<string>)
    ensures SerialiseTags([Selection(name, labels)]) == name + ": " + Join(", ", labels)
  {
    var tags := [Selection(name, labels)];
    var parts := seq(|tags|, c requires 0 <= c < |tags| => tags[c].category + ": " + Join(", ", tags[c].labels));
    assert parts == [name + ": " + Join(", ", labels)];
  }

  /** The positions in `Suffixes`, at or after `from`, of the variants whose
      image exists, in visiting order. */
  function PresentVariants(id: string, imageExists: string -> bool, from: nat): (r: seq<nat>)
    decreases |Suffixes| - from
    ensures Increasing(r)
    ensures forall m :: 0 <= m < |r| ==> from <= r[m] < |Suffixes|
    ensures forall v :: from <= v < |Suffixes| ==> (v in r <==> imageExists(ImageFile(id + Suffixes[v])))
  {
    if from >= |Suffixes| then []
    else
      var rest := PresentVariants(id, imageExists, from + 1);
      if imageExists(ImageFile(id + Suffixes[from])) then [from] + rest else rest
  }

  /** What holds of every row the loop writes: its image exists and its tag
      string serialises the tags generated from that image's scores. */
  predicate WellTagged(row: TaggedRow, catalog: Catalog, imageExists: string -> bool,
                       scoresOf: string -> seq<seq<real>>)
  {
    var file := ImageFile(row.id);
    && imageExists(file)
    && Aligned(catalog, scoresOf(file))
    && Selectable(catalog)
    && row.tags == SerialiseTags(GenerateTags(catalog, scoresOf(file)).value)
  }

  /** The row the loop appends for variant `v` of a shot whose image exists. */
  function VariantRow(shot: Shot, v: nat, catalog: Catalog, imageExists: string -> bool,
                      scoresOf: string -> seq<seq<real>>): (row: TaggedRow)
    requires v < |Suffixes| && Selectable(catalog)
    requires imageExists(ImageFile(shot.id + Suffixes[v]))
    requires forall f :: imageExists(f) ==> Aligned(catalog, scoresOf(f))
    ensures row.id == shot.id + Suffixes[v]
    ensures row.shotTitle == shot.shotTitle && row.description == shot.description
    ensures WellTagged(row, catalog, imageExists, scoresOf)
  {
    var id := shot.id + Suffixes[v];
    var tags := GenerateTagsFor(catalog, scoresOf(ImageFile(id)), shot.description).value;
    TaggedRow(id, shot.shotTitle, shot.description, SerialiseTags(tags))
  }

  /** The rows of one shot: its existing variants in `a`, `b`, `c` order,
      each carrying the shot's title and description; tagging raises on a
      short category as soon as one variant image exists. */
  function TagShot(shot: Shot, catalog: Catalog, imageExists: string -> bool,
                   scoresOf: string -> seq<seq<real>>): (r: Result<seq<TaggedRow>>)
    requires forall f :: imageExists(f) ==> Aligned(catalog, scoresOf(f))
    ensures r.Success? <==> Selectable(catalog) || |PresentVariants(shot.id, imageExists, 0)| == 0
    ensures r.Failure? ==> r.error == ShortError(catalog)
    ensures r.Success? ==>
              var present := PresentVariants(shot.id, imageExists, 0);
              && |r.value| == |present| <= 3
              && forall m :: 0 <= m < |r.value| ==>
                   && r.value[m].id == shot.id + Suffixes[present[m]]
                   && r.value[m].shotTitle == shot.shotTitle
                   && r.value[m].description == shot.description
                   && WellTagged(r.value[m], catalog, imageExists, scoresOf)
  {
    var present := PresentVariants(shot.id, imageExists, 0);
    if |present| == 0 then Success([])
    else if !Selectable(catalog) then Failure(ShortError(catalog))
    else
      Success(seq(|present|, m requires 0 <= m < |present| =>
        assert present[m] in present;
        VariantRow(shot, present[m], catalog, imageExists, scoresOf)))
  }

  /** The whole loop over the shot table, shot by shot: the run fails, with
      the error of the first short category, as soon as one variant image
      exists and the catalog cannot be ranked; otherwise it writes at most
      three rows per shot, each tagged from its own image. */
  function TagShots(shots: seq<Shot>, catalog: Catalog, imageExists: string -> bool,
                    scoresOf: string -> seq<seq<real>>): (r: Result<seq<TaggedRow>>)
    requires forall f :: imageExists(f) ==> Aligned(catalog, scoresOf(f))
    decreases |shots|
    ensures r.Success? <==>
              Selectable(catalog) || forall n :: 0 <= n < |shots| ==> |PresentVariants(shots[n].id, imageExists, 0)| == 0
    ensures r.Failure? ==> r.error == ShortError(catalog)
    ensures r.Success? ==>
              && |r.value| <= 3 * |shots|
              && forall row :: row in r.value ==> WellTagged(row, catalog, imageExists, scoresOf)
  {
    if |shots| == 0 then Success([])
    else Then(TagShot(shots[0], catalog, imageExists, scoresOf), TagShots(shots[1..], catalog, imageExists, scoresOf))
  }

  /** One step of the shot loop: the first shot's rows, then the rest. */
  lemma TagShotsCons(shot: Shot, rest: seq<Shot>, catalog: Catalog, imageExists: string -> bool,
                     scoresOf: string -> seq<seq<real>>)
    requires forall f :: imageExists(f) ==> Aligned(catalog, scoresOf(f))
    ensures TagShots([shot] + rest, catalog, imageExists, scoresOf)
         == Then(TagShot(shot, catalog, imageExists, scoresOf), TagShots(rest, catalog, imageExists, scoresOf))
  {
    assert ([shot] + rest)[0] == shot && ([shot] + rest)[1..] == rest;
  }

  /** The loop over one shot writes exactly that shot's rows. */
  lemma TagShotsSingle(shot: Shot, catalog: Catalog, imageExists: string -> bool,
                       scoresOf: string -> seq<seq<real>>)
    requires forall f :: imageExists(f) ==> Aligned(catalog, scoresOf(f))
    ensures TagShots([shot], catalog, imageExists, scoresOf) == TagShot(shot, catalog, imageExists, scoresOf)
  {
    TagShotsCons(shot, [], catalog, imageExists, scoresOf);
    assert [shot] + [] == [shot];
    ThenSuccessEmpty(TagShot(shot, catalog, imageExists, scoresOf));
  }

  /** Shots are tagged in table order: tagging two shot lists one after the
      other is tagging their concatenation, and the first failure wins. */
  lemma {:induction false} TagShotsAppend(s1: seq<Shot>, s2: seq<Shot>, catalog: Catalog,
                                          imageExists: string -> bool, scoresOf: string -> seq<seq<real>>)
    requires forall f :: imageExists(f) ==> Aligned(catalog, scoresOf(f))
    ensures TagShots(s1 + s2, catalog, imageExists, scoresOf)
         == Then(TagShots(s1, catalog, imageExists, scoresOf), TagShots(s2, catalog, imageExists, scoresOf))
    decreases |s1|
  {
    if |s1| == 0 {
      assert s1 + s2 == s2;
      ThenSuccessEmpty(TagShots(s2, catalog, imageExists, scoresOf));
    } else {
      var head, tail := s1[0], s1[1..];
      assert s1 == [head] + tail && s1 + s2 == [head] + (tail + s2);
      TagShotsCons(head, tail + s2, catalog, imageExists, scoresOf);
      TagShotsAppend(tail, s2, catalog, imageExists, scoresOf);
      TagShotsCons(head, tail, catalog, imageExists, scoresOf);
      ThenAssociative(TagShot(head, catalog, imageExists, scoresOf),
                      TagShots(tail, catalog, imageExists, scoresOf),
                      TagShots(s2, catalog, imageExists, scoresOf));
    }
  }

  /** No existing variant is lost: when the loop succeeds, the row of every
      variant of every shot whose image exists is among the written rows. */
  lemma {:induction false} VariantWritten(shots: seq<Shot>, catalog: Catalog, imageExists: string -> bool,
                                          scoresOf: string -> seq<seq<real>>, n: nat, v: nat)
    requires forall f :: imageExists(f) ==> Aligned(catalog, scoresOf(f))
    requires TagShots(shots, catalog, imageExists, scoresOf).Success?
    requires n < |shots| && v < |Suffixes| && imageExists(ImageFile(shots[n].id + Suffixes[v]))
    ensures Selectable(catalog)
    ensures VariantRow(shots[n], v, catalog, imageExists, scoresOf) in TagShots(shots, catalog, imageExists, scoresOf).value
    decreases n
  {
    TagShotsCons(shots[0], shots[1..], catalog, imageExists, scoresOf);
    assert [shots[0]] + shots[1..] == shots;
    var present := PresentVariants(shots[n].id, imageExists, 0);
    assert v in present;
    if n == 0 {
      VariantInShot(shots[0], catalog, imageExists, scoresOf, v);
    } else {
      assert shots[1..][n - 1] == shots[n];
      VariantWritten(shots[1..], catalog, imageExists, scoresOf, n - 1, v);
    }
  }

  /** Within one shot: the row of every variant whose image exists is written. */
  lemma VariantInShot(shot: Shot, catalog: Catalog, imageExists: string -> bool,
                      scoresOf: string -> seq<seq<real>>, v: nat)
    requires forall f :: imageExists(f) ==> Aligned(catalog, scoresOf(f))
    requires TagShot(shot, catalog, imageExists, scoresOf).Success?
    requires v < |Suffixes| && imageExists(ImageFile(shot.id + Suffixes[v]))
    ensures VariantRow(shot, v, catalog, imageExists, scoresOf) in TagShot(shot, catalog, imageExists, scoresOf).value
  {
    var present := PresentVariants(shot.id, imageExists, 0);
    assert v in present;
    var rows := TagShot(shot, catalog, imageExists, scoresOf).value;
    var m :| 0 <= m < |present| && present[m] == v;
    var row := VariantRow(shot, v, catalog, imageExists, scoresOf);
    assert rows[m].id == row.id && rows[m].tags == row.tags;
    assert rows[m] == row;
  }

  /** Every written row is variant `a`, `b` or `c` of some shot, with that
      shot's title and description. */
  lemma {:induction false} RowOrigin(shots: seq<Shot>, catalog: Catalog, imageExists: string -> bool,
                                     scoresOf: string -> seq<seq<real>>, row: TaggedRow)
    requires forall f :: imageExists(f) ==> Aligned(catalog, scoresOf(f))
    requires TagShots(shots, catalog, imageExists, scoresOf).Success?
    requires row in TagShots(shots, catalog, imageExists, scoresOf).value
    ensures exists n, v ::
              && 0 <= n < |shots| && 0 <= v < |Suffixes|
              && row.id == shots[n].id + Suffixes[v]
              && row.shotTitle == shots[n].shotTitle
              && row.description == shots[n].description
    decreases |shots|
  {
    TagShotsCons(shots[0], shots[1..], catalog, imageExists, scoresOf);
    assert [shots[0]] + shots[1..] == shots;
    var rows := TagShot(shots[0], catalog, imageExists, scoresOf).value;
    if row in rows {
      var m :| 0 <= m < |rows| && rows[m] == row;
    } else {
      RowOrigin(shots[1..], catalog, imageExists, scoresOf, row);
      var n, v :| && 0 <= n < |shots[1..]| && 0 <= v < |Suffixes|
                  && row.id == shots[1..][n].id + Suffixes[v]
                  && row.shotTitle == shots[1..][n].shotTitle
                  && row.description == shots[1..][n].description;
      assert shots[1..][n] == shots[n + 1];
    }
  }

  /** Validating a row re-reads the very image the row was tagged from
      (`<shot id><suffix>.png`, which exists for every row `TagShots`
      writes), so none of the labels generated from that image is reported,
      whatever the threshold (category names and the labels of each category
      distinct). */
  lemma TaggedRowValidatesClean(row: TaggedRow, catalog: Catalog, imageExists: string -> bool,
                                scoresOf: string -> seq<seq<real>>, threshold: real)
    requires forall f :: imageExists(f) ==> Aligned(catalog, scoresOf(f))
    requires imageExists(ImageFile(row.id)) && Selectable(catalog)
    requires DistinctNames(catalog) && forall c :: 0 <= c < |catalog| ==> DistinctLabels(catalog[c])
    ensures var scores := scoresOf(ImageFile(row.id));
            var entries := ValidateImage(catalog, scores, threshold).value;
            && ValidateTags([row.id], catalog, imageExists, scoresOf, threshold)
               == Success([ValidationResult(row.id, entries)])
            && forall e, c :: e in entries && 0 <= c < |catalog| && e.category == catalog[c].name ==>
                 e.tag !in GenerateTags(catalog, scores).value[c].labels
  {
    var scores := scoresOf(ImageFile(row.id));
    SingleRowValidation(row.id, catalog, imageExists, scoresOf, threshold);
    forall c | 0 <= c < |catalog| {
      SelectedNeverFlagged(catalog, scores, threshold, c);
    }
  }

  /** A query that mentions (case-insensitively) a label selected for a
      written row finds a tag, and that row scores at least 1, so it is
      among the rows the search ranks. */
  lemma SearchFindsOwnLabel(query: string, row: TaggedRow, rows: seq<TaggedRow>, catalog: Catalog,
                            imageExists: string -> bool, scoresOf: string -> seq<seq<real>>,
                            topK: int, c: nat, m: nat)
    requires WellTagged(row, catalog, imageExists, scoresOf)
    requires c < |catalog| && m < K(catalog[c].name)
    requires IsSubstring(Lower(GenerateTags(catalog, scoresOf(ImageFile(row.id))).value[c].labels[m]), Lower(query))
    ensures var matched := MatchQueryToTags(query, LoadAllTags(catalog));
            && SearchImages(query, catalog, rows, topK).Ranked?
            && ScoreTagMatches(row.tags, matched) >= 1
            && (row in rows ==> Hit(row, ScoreTagMatches(row.tags, matched)) in Positive(ScoreRows(rows, matched)))
  {
    var scores := scoresOf(ImageFile(row.id));
    var tags := GenerateTags(catalog, scores).value;
    SelectionProperties(catalog, scores, c);
    var l := tags[c].labels[m];
    var top := TopK(scores[c], K(catalog[c].name));
    assert l == catalog[c].labels[top[m]];
    CandidateOfLabel(catalog, c, top[m]);
    var matched := MatchQueryToTags(query, LoadAllTags(catalog));
    assert Lower(l) in multiset(matched);
    assert IsSubstring(l, row.tags);
    SubstringLower(l, row.tags);
    var own := MatchQueryToTags(row.tags, matched);
    assert Lower(l) in multiset(own);
    if row in rows {
      var scored := ScoreRows(rows, matched);
      var n :| 0 <= n < |rows| && rows[n] == row;
      assert scored[n] == Hit(row, ScoreTagMatches(row.tags, matched));
      assert scored[n] in multiset(scored);
      assert Hit(row, ScoreTagMatches(row.tags, matched)) in multiset(Positive(scored));
    }
  }
}

=== FILE: text.dfy ===
/** String operations the tagging pipeline relies on: ASCII lower-casing,
    substring containment (Python's `needle in hay`) and `sep.join(parts)`. */
module Text {

  /** Lower-cases one character; only the ASCII letters A-Z change. */
  function LowerChar(c: char): char {
    if 'A' <= c <= 'Z' then (c as int + 32) as char else c
  }

  /** No ASCII upper-case letter occurs in `s`. */
  predicate LowerCase(s: string) {
    forall i :: 0 <= i < |s| ==> !('A' <= s[i] <= 'Z')
  }

  /** Lower-cases a string character by character: the result is lower-case,
      as long as the input, and differs from it only where the input had an
      upper-case letter, which becomes the letter 32 code points higher. */
  function Lower(s: string): (r: string)
    ensures |r| == |s| && LowerCase(r)
    ensures forall i :: 0 <= i < |s| ==>
              if 'A' <= s[i] <= 'Z' then r[i] as int == s[i] as int + 32 else r[i] == s[i]
  {
    seq(|s|, i requires 0 <= i < |s| => LowerChar(s[i]))
  }

  /** The declarative meaning of `needle in hay`: some slice of `hay` equals `needle`. */
  ghost predicate IsSubstring(needle: string, hay: string) {
    exists i, j :: 0 <= i <= j <= |hay| && hay[i..j] == needle
  }

  /** `needle in hay`, computed by trying every start position from the left. */
  predicate Contains(hay: string, needle: string)
    decreases |hay|
  {
    if |needle| <= |hay| && hay[..|needle|] == needle then true
    else if |hay| == 0 then false
    else Contains(hay[1..], needle)
  }

  /** `needle` occurs in `hay` starting at position `i`. */
  predicate MatchAt(hay: string, needle: string, i: nat) {
    i + |needle| <= |hay| && hay[i..i + |needle|] == needle
  }

  /** A match found by the scan is a slice of the text. */
  lemma {:induction false} ContainsSound(hay: string, needle: string)
    requires Contains(hay, needle)
    ensures exists i: nat :: MatchAt(hay, needle, i)
    decreases |hay|
  {
    if |needle| <= |hay| && hay[..|needle|] == needle {
      assert MatchAt(hay, needle, 0);
    } else {
      var tail := hay[1..];
      ContainsSound(tail, needle);
      var i: nat :| MatchAt(tail, needle, i);
      assert hay[i + 1..i + 1 + |needle|] == tail[i..i + |needle|];
      assert MatchAt(hay, needle, i + 1);
    }
  }

  /** The scan finds every slice of the text that equals the needle. */
  lemma {:induction false} ContainsComplete(hay: string, needle: string, i: nat)
    requires MatchAt(hay, needle, i)
    ensures Contains(hay, needle)
    decreases i
  {
    if i > 0 && !(|needle| <= |hay| && hay[..|needle|] == needle) {
      var tail := hay[1..];
      assert tail[i - 1..i - 1 + |needle|] == hay[i..i + |needle|];
      assert MatchAt(tail, needle, i - 1);
      ContainsComplete(tail, needle, i - 1);
    }
  }

  /** The scanning search agrees with the declarative definition, in both directions. */
  lemma ContainsIsSubstring(hay: string, needle: string)
    ensures Contains(hay, needle) <==> IsSubstring(needle, hay)
  {
    if Contains(hay, needle) {
      ContainsSound(hay, needle);
      var i: nat :| MatchAt(hay, needle, i);
      assert hay[i..i + |needle|] == needle;
    }
    if IsSubstring(needle, hay) {
      var i, j :| 0 <= i <= j <= |hay| && hay[i..j] == needle;
      assert MatchAt(hay, needle, i);
      ContainsComplete(hay, needle, i);
    }
  }

  /** A substring of the middle part is a substring of the whole. */
  lemma SubstringInfix(x: string, p: string, a: string, q: string)
    requires IsSubstring(x, a)
    ensures IsSubstring(x, p + a + q)
  {
    var i, j :| 0 <= i <= j <= |a| && a[i..j] == x;
    assert (p + a + q)[|p| + i..|p| + j] == x;
  }

  /** A substring of a substring is a substring. */
  lemma SubstringTransitive(x: string, y: string, z: string)
    requires IsSubstring(x, y) && IsSubstring(y, z)
    ensures IsSubstring(x, z)
  {
    var i, j :| 0 <= i <= j <= |y| && y[i..j] == x;
    var i', j' :| 0 <= i' <= j' <= |z| && z[i'..j'] == y;
    var a, b := i' + i, i' + j;
    forall k | 0 <= k < |x|
      ensures z[a..b][k] == x[k]
    {
      assert z[a..b][k] == z[a + k] == y[i + k];
    }
    assert z[a..b] == x;
  }

  /** Substring containment survives lower-casing both sides. */
  lemma SubstringLower(x: string, hay: string)
    requires IsSubstring(x, hay)
    ensures IsSubstring(Lower(x), Lower(hay))
  {
    var i, j :| 0 <= i <= j <= |hay| && hay[i..j] == x;
    assert Lower(hay)[i..j] == Lower(x);
  }

  /** Python's `sep.join(parts)`: nothing for no parts, the part itself for
      one part, and `JoinAppend` gives the separator between longer lists. */
  function Join(sep: string, parts: seq<string>): (r: string)
    decreases |parts|
    ensures |parts| == 0 ==> r == ""
    ensures |parts| == 1 ==> r == parts[0]
  {
    if |parts| == 0 then ""
    else if |parts| == 1 then parts[0]
    else parts[0] + sep + Join(sep, parts[1..])
  }

  /** Joining two non-empty lists is joining each and putting one separator
      between them: the parts keep their order and every gap gets `sep`. */
  lemma {:induction false} JoinAppend(sep: string, a: seq<string>, b: seq<string>)
    requires |a| > 0 && |b| > 0
    ensures Join(sep, a + b) == Join(sep, a) + sep + Join(sep, b)
    decreases |a|
  {
    assert (a + b)[0] == a[0];
    if |a| == 1 {
      assert (a + b)[1..] == b;
    } else {
      assert (a + b)[1..] == a[1..] + b;
      JoinAppend(sep, a[1..], b);
    }
  }

  /** Every joined part occurs in the joined string. */
  lemma {:induction false} PartInJoin(sep: string, parts: seq<string>, n: nat)
    requires n < |parts|
    ensures IsSubstring(parts[n], Join(sep, parts))
    decreases |parts|
  {
    if |parts| == 1 {
      assert Join(sep, parts)[0..|parts[0]|] == parts[0];
    } else if n == 0 {
      assert Join(sep, parts)[0..|parts[0]|] == parts[0];
    } else {
      PartInJoin(sep, parts[1..], n - 1);
      SubstringInfix(parts[n], parts[0] + sep, Join(sep, parts[1..]), "");
      assert parts[0] + sep + Join(sep, parts[1..]) + "" == Join(sep, parts);
    }
  }
}
